=== FILE: README.md ===
# A verified model of the Brainfuck interpreter core

This project models `src/program.rs` of the Rust Brainfuck interpreter in Dafny. That file is the
whole interpreter: the loader, the execution engine and the run loop. The model covers:

- **Loading.** `load` scans every character of the source text. Each of the eight opcode
  characters `><+-.,[]` is pushed as an `Instructions` value, and every other character is
  skipped as a comment. The interpreter then starts on a 30000-cell tape of zeros, with the
  data pointer, pc and instruction counter at 0 and an empty output. Modules: `Opcodes`, `Loader`.
- **Bracket matching.** `jump_forward` and `jump_backwards` scan for the matching bracket with a
  nesting counter. `Brackets` defines nesting depth, balanced stretches, well-bracketed programs
  and the matching relation between a `[` and a `]`. It proves that matches are unique and that
  they exist in a well-bracketed program.
- **Stepping and running.** The model has the same execution engine twice:
  - `Semantics` defines it as functions on an immutable `State`: `Step` is one fetch/execute
    step and `Run` steps until an error or the end of the program.
  - `Interpreter` defines it as the class `Program`, whose methods update the tape array and the
    pointer fields in place. Each method's contract ties the new object state to the matching
    function in `Semantics`.
- **Whole-program scenarios.** `Scenarios` follows small programs to the end of their runs:
  - an echo of one input byte;
  - a program that adds two cells with a loop;
  - `,` at the end of input with the data pointer off the tape;
  - unmatched brackets, both taken and not taken.

Byte arithmetic is written out explicitly:

- `+` increments through a 16-bit sum truncated back to 8 bits, so it wraps 255 to 0.
- `-` uses a checked subtraction that falls back to 255, so it wraps 0 to 255.

The counter is bumped before the instruction is fetched. So a step that finds no instruction
still counts, and it returns the error "No more instruction left". On the empty program, `run`
fails at once with that error and prints no count; the counter field is then 1
(`Semantics.RunEmptyProgram`).

## Model

| member | source | states |
|---|---|---|
| Opcodes.Decode | src/program.rs:38-47 | the loader's character match: exactly the eight characters `><+-.,[]` stand for an instruction, every other character is a comment |
| Opcodes.Spelling | src/program.rs:38-47 | every instruction has a source character that the loader maps back to that instruction |
| Opcodes.DecodeOnlySpelling | src/program.rs:38-47 | the loader maps exactly one character to each instruction, so the character-to-instruction mapping is injective |
| Loader.Load | src/program.rs:36-50 | the program a text loads to, scanning left to right: one instruction per opcode character of the text and none for any other character |
| Loader.ScanLines | src/program.rs:36-50 | the nested scan over lines and characters produces exactly `Load` of the file text, in order |
| Loader.LoadAppend | src/program.rs:36-50 | loading a concatenation gives the concatenation of the loaded parts, so splitting the text into lines does not change the program |
| Loader.LoadShow | src/program.rs:38-47 | spelling a program and loading the spelling gives the program back |
| Loader.ShowLoad | src/program.rs:38-47 | spelling a loaded program gives exactly the opcode characters of the text, in their original order |
| Loader.LoadIgnoresComments | src/program.rs:47 | removing every non-opcode character before loading does not change the program |
| Loader.CommentLoadsNothing | src/program.rs:47 | a text without opcode characters loads to the empty program |
| Brackets.ClosingUnique | src/program.rs:62-76 | a `[` has at most one matching `]`, so the forward jump target is determined |
| Brackets.OpeningUnique | src/program.rs:78-93 | a `]` has at most one matching `[`, so the backward jump target is determined |
| Brackets.MatchIsMutual | src/program.rs:62-93 | forward and backward resolution are inverse to each other on a matched pair |
| Brackets.ClosingExists | src/program.rs:62-76 | in a well-bracketed program every `[` has a matching `]` |
| Brackets.OpeningExists | src/program.rs:78-93 | in a well-bracketed program every `]` has a matching `[` |
| Brackets.NoBracketsWellBracketed | src/program.rs:62-93 | a program without brackets is well-bracketed |
| Semantics.Initial | src/program.rs:52-59 | the state a loaded program starts from: 30000 zero cells, dp, pc and counter 0, empty output, and the whole input still to read |
| Semantics.WrapInc | src/program.rs:110 | `+` on a cell: the successor of the cell modulo 256 |
| Semantics.WrapDec | src/program.rs:114-116 | `-` on a cell: the predecessor of the cell modulo 256 |
| Semantics.Step | src/program.rs:95-156 | one fetch/execute step, with `StepStatus` the `Result` it returns (Err exactly when pc is off the end): the counter goes up by one before the fetch, the tape keeps its size, output only grows, and input is only consumed from the front |
| Semantics.Run | src/program.rs:158-168 | `run`: step until an error or pc at or past the end; the counter never goes down and grows by at most the step budget, the tape keeps its size, and output only grows |
| Semantics.WellBracketedCanStep | src/program.rs:135-148 | in a well-bracketed program, any step whose cell access stays on the tape can resolve its jump |
| Semantics.WrapArithmetic | src/program.rs:109-119 | increment is +1 modulo 256 and decrement is -1 modulo 256; 255 wraps to 0 and 0 wraps to 255 |
| Semantics.WrapInverse | src/program.rs:109-119 | increment and decrement undo each other on every byte |
| Semantics.StepCounter | src/program.rs:95-156 | every step adds exactly one to the counter; it fails iff pc is at or past the end of the program; a failing step changes nothing else |
| Semantics.StepInvariants | src/program.rs:95-156 | a step keeps the tape size and changes no cell but the current one; output only grows, by at most one character; input is consumed only from the front; pc stays within the program |
| Semantics.StepIncrement | src/program.rs:109-112 | `+` sets the current cell to (cell+1) mod 256, changes no other cell, dp, output or input, and advances pc (the counter step is `StepCounter`'s) |
| Semantics.StepDecrement | src/program.rs:113-119 | `-` sets the current cell to (cell-1) mod 256, changes no other cell, dp, output or input, and advances pc (the counter step is `StepCounter`'s) |
| Semantics.IncrementThenDecrement | src/program.rs:109-119 | `+-` restores the state apart from pc and the counter |
| Semantics.DecrementThenIncrement | src/program.rs:109-119 | `-+` restores the state apart from pc and the counter |
| Semantics.StepMove | src/program.rs:101-108 | `>` and `<` move dp by exactly one cell and change nothing else but pc and the counter |
| Semantics.MoveThereAndBack | src/program.rs:101-108 | `><` and `<>` restore dp |
| Semantics.StepOutput | src/program.rs:120-125 | `.` appends exactly the current cell, as a character, to the output and changes nothing else but pc and the counter |
| Semantics.StepInput | src/program.rs:126-134 | `,` stores the next input byte in the current cell and consumes it; at the end of input nothing changes but pc and the counter, and dp need not be on the tape |
| Semantics.StepJumpForward | src/program.rs:135-141 | `[` on a zero cell lands exactly one past its matching `]`; on a nonzero cell it advances pc by one |
| Semantics.StepJumpBack | src/program.rs:142-148 | `]` on a nonzero cell lands exactly one past its matching `[`; on a zero cell it advances pc by one |
| Semantics.RunFinishesAtEnd | src/program.rs:158-168 | a run reports success only with pc exactly at the end of the program, after at least one counted step |
| Semantics.RunFailsOnlyWhenExhausted | src/program.rs:158-168 | a run reports step's error only when it starts at the end of the program, and then the only change is one counted step |
| Semantics.WellBracketedRunsMatched | src/program.rs:62-93 | a run of a well-bracketed program never stops at a jump without a matching bracket |
| Semantics.RunEmptyProgram | src/program.rs:158-162 | running the empty program fails at once with "No more instruction left" and counter 1 |
| Semantics.RunStraightLine | src/program.rs:158-168 | a program without loops that stays on the tape finishes in exactly one counted step per remaining instruction |
| Semantics.RunStraightLineFromStart | src/program.rs:158-168 | a fresh loop-free program that stays on the tape finishes with the counter equal to its length |
| Interpreter.Program.constructor | src/program.rs:34-59 | the loaded instructions are `Load` of the file text, and the state is a zeroed 30000-cell tape with dp, pc and counter 0, empty output and the given input |
| Interpreter.Program.JumpForward | src/program.rs:62-76 | the nesting-counter scan finds a bracket exactly when the `[` at pc has a matching `]`, and then returns one past it |
| Interpreter.Program.JumpBackwards | src/program.rs:78-93 | the nesting-counter scan finds a bracket exactly when the `]` at pc has a matching `[`, and then returns one past it |
| Interpreter.Program.Step | src/program.rs:95-156 | the in-place step leaves the object in the state `Semantics.Step` gives; it returns Err iff pc was at or past the end |
| Interpreter.Program.Run | src/program.rs:158-168 | the in-place run loop ends in the state and outcome `Semantics.Run` gives, for any program |
| Scenarios.EchoOneByte | src/program.rs:120-134 | `,.` loads to `[RP, OP]`; with input byte 65 it finishes after two steps with output "A" and the input consumed |
| Scenarios.AddProgramLoads | src/program.rs:36-50 | the text `++>+++++[<+>-]<` loads to the fifteen-instruction program `AddProgram` |
| Scenarios.AddProgramShape | src/program.rs:62-93 | in `AddProgram` the `[` at 8 matches the `]` at 13, and the program is well-bracketed |
| Scenarios.AddLoop | src/program.rs:135-148 | the loop `[<+>-]` adds cell 1 into cell 0, taking five steps per unit, and leaves pc just past the `]` |
| Scenarios.ReadNothingOffTape | src/program.rs:126-134 | `<,` with no input finishes after two steps: `,` at the end of input does not index the tape, even with dp at -1 |
| Scenarios.UnmatchedJumpNotTaken | src/program.rs:135-141 | `+[` on a zeroed tape finishes after two steps although its `[` has no match, since the jump is not taken |
| Scenarios.UnmatchedJumpBackNotTaken | src/program.rs:142-148 | `]` on a zeroed tape finishes after one step although it has no match, since the jump is not taken |
| Scenarios.UnmatchedJumpTaken | src/program.rs:62-76 | `[` on a zeroed tape takes a jump whose scan finds no bracket within the program, and the run stops there as `Unmatched` |
| Scenarios.WrappedScanNotFollowed | src/program.rs:78-93 | on `+]-[` the taken `]` has no `[` before it, and the run stops as `Unmatched` after one step instead of following the scan's i32 overflow |
| Scenarios.AddTwoAndFive | src/program.rs:95-168 | on a zeroed tape `AddProgram` finishes after 35 counted steps with 7 in cell 0, 0 in cell 1 and dp back on cell 0 |

## Left out

- File opening and line reading: the constructor takes the file's lines, and `Text` joins them with a line break after each. Load failures that panic are not modelled.
- `print!` of each output byte and the `println!` of the instruction count at the end of `run`: both are console output. The output string that `step` accumulates is modelled.
- Standard input: it is an explicit sequence of bytes. A read error is treated like the end of input: the cell is unchanged. This is also what the code does.
- `run_interactive`, `src/cli.rs` and `src/main.rs` are not part of this model: they are the command-line and console front end.
- Out-of-range tape access: the code panics when dp is outside the tape at an instruction that indexes the current cell. That is every instruction except `>`, `<`, and `,` when no input is left. Here that is a precondition of `Step` (`CellSafe`). `Run` stops before such an instruction and reports `TapeFault` instead of panicking.
- Overflow of the jump scans: on a taken jump without a matching bracket, the code scans past the end (or the start) of the program until its i32 scan index overflows. A debug build then panics. A release build wraps around and scans on from the other end of the program, where it can land on a bracket on the wrong side: `+]-[` ends Ok after 2 steps in a release build. The model does not follow the wrap-around. `JumpForward` and `JumpBackwards` stop at the edge of the program and report that no bracket was found, and `Unmatched` stands for every one of these endings: the panic, the wrapped scan that lands, and the wrapped scan that goes on for ever (`Scenarios.WrappedScanNotFollowed`). `Step` requires that the jump it takes resolves (`CanStep`). `Run` stops before such a jump and reports `Unmatched`. Programs with unmatched brackets whose jumps are never taken run normally, such as `+[` and `]` on a zeroed tape.
- Interpreter.Program.Run: the step budget `fuel` bounds the otherwise unbounded loop. Running out of it is reported as `OutOfFuel`, so the model says nothing about programs that never end.
- Semantics.RunStraightLine: its `StaysOnTape` condition counts every `,` as a cell access, even at the end of the input. It is a sufficient condition for finishing, not an exact one.
- Semantics.RunStraightLineFromStart: it has the same `StaysOnTape` condition, so it also counts `,` at the end of the input as a cell access. It says nothing about `<,` with empty input, which the code finishes in 2 steps (`Scenarios.ReadNothingOffTape` covers that case).
- The i32 widths of `dp`, `pc`, `counter` and the jump scans' index are unbounded integers here, so overflow after 2^31 steps or cells is not modelled.

=== FILE: brackets.dfy ===
/** Bracket structure of a program: nesting depth, balance, and which JF matches which JB. */
module Brackets {
  import opened Opcodes

  /** How one instruction changes the nesting depth. */
  function Delta(i: Instruction): int
  {
    if i == JF then 1 else if i == JB then -1 else 0
  }

  /** The net nesting depth of p[i..j]: brackets opened there minus brackets closed. */
  function Nesting(p: seq<Instruction>, i: int, j: int): int
    requires 0 <= i <= j <= |p|
    decreases j - i
  {
    if i == j then 0 else Nesting(p, i, j - 1) + Delta(p[j - 1])
  }

  /** p[i..j] closes every bracket it opens and never closes one it did not open. */
  predicate Balanced(p: seq<Instruction>, i: int, j: int)
    requires 0 <= i <= j <= |p|
  {
    Nesting(p, i, j) == 0 && forall k :: i <= k <= j ==> Nesting(p, i, k) >= 0
  }

  predicate WellBracketed(p: seq<Instruction>)
  {
    Balanced(p, 0, |p|)
  }

  /** The JF at `open` and the JB at `close` enclose a balanced stretch of program. */
  predicate Matches(p: seq<Instruction>, open: int, close: int)
  {
    0 <= open < close < |p| && p[open] == JF && p[close] == JB && Balanced(p, open + 1, close)
  }

  /** The JB that matches the JF at `open`. */
  ghost function ClosingBracket(p: seq<Instruction>, open: int): (close: int)
    requires exists c :: Matches(p, open, c)
    ensures Matches(p, open, close)
  {
    var c :| Matches(p, open, c); c
  }

  /** The JF that matches the JB at `close`. */
  ghost function OpeningBracket(p: seq<Instruction>, close: int): (open: int)
    requires exists o :: Matches(p, o, close)
    ensures Matches(p, open, close)
  {
    var o :| Matches(p, o, close); o
  }

  /** Depths add up over adjacent stretches. */
  lemma {:induction false} NestingSplit(p: seq<Instruction>, i: int, k: int, j: int)
    requires 0 <= i <= k <= j <= |p|
    ensures Nesting(p, i, j) == Nesting(p, i, k) + Nesting(p, k, j)
    decreases j - k
  {
    if k < j {
      NestingSplit(p, i, k, j - 1);
    }
  }

  /** Inside a matched pair the depth, counted from just after the JF, never goes negative. */
  lemma NoEarlierClose(p: seq<Instruction>, open: int, close: int, k: int)
    requires Matches(p, open, close) && open < k < close
    ensures Nesting(p, open + 1, k + 1) >= 0
  {
  }

  /** Inside a matched pair the depth, counted back from just before the JB, never goes positive. */
  lemma NoLaterOpen(p: seq<Instruction>, open: int, close: int, k: int)
    requires Matches(p, open, close) && open < k < close
    ensures Nesting(p, k, close) <= 0
  {
    NestingSplit(p, open + 1, k, close);
  }

  /** A JF has at most one matching JB. */
  lemma ClosingUnique(p: seq<Instruction>, open: int, c1: int, c2: int)
    requires Matches(p, open, c1) && Matches(p, open, c2)
    ensures c1 == c2
  {
    if c1 < c2 {
      NoEarlierClose(p, open, c2, c1);
      assert false;
    } else if c2 < c1 {
      NoEarlierClose(p, open, c1, c2);
      assert false;
    }
  }

  /** A JB has at most one matching JF. */
  lemma OpeningUnique(p: seq<Instruction>, o1: int, o2: int, close: int)
    requires Matches(p, o1, close) && Matches(p, o2, close)
    ensures o1 == o2
  {
    if o1 < o2 {
      NoLaterOpen(p, o1, close, o2);
      NestingSplit(p, o2, o2 + 1, close);
      assert false;
    } else if o2 < o1 {
      NoLaterOpen(p, o2, close, o1);
      NestingSplit(p, o1, o1 + 1, close);
      assert false;
    }
  }

  /** Forward and backward resolution are inverse to each other on a matched pair. */
  lemma MatchIsMutual(p: seq<Instruction>, open: int, close: int)
    requires Matches(p, open, close)
    ensures ClosingBracket(p, open) == close && OpeningBracket(p, close) == open
  {
    ClosingUnique(p, open, ClosingBracket(p, open), close);
    OpeningUnique(p, OpeningBracket(p, close), open, close);
  }

  /** Scanning right from k, the depth counted from i must first drop below zero
      somewhere before j, since it is negative at j. */
  lemma {:induction false} FirstDip(p: seq<Instruction>, i: int, k: int, j: int) returns (c: int)
    requires 0 <= i <= k <= j <= |p|
    requires forall m :: i <= m <= k ==> Nesting(p, i, m) >= 0
    requires Nesting(p, i, j) < 0
    ensures k <= c < j && Nesting(p, i, c) == 0 && Nesting(p, i, c + 1) == -1
    ensures forall m :: i <= m <= c ==> Nesting(p, i, m) >= 0
    decreases j - k
  {
    if Nesting(p, i, k + 1) < 0 {
      c := k;
    } else {
      c := FirstDip(p, i, k + 1, j);
    }
  }

  /** Scanning left from k, the depth counted up to j must first rise above zero
      somewhere, since it is positive from 0. */
  lemma {:induction false} LastRise(p: seq<Instruction>, k: int, j: int) returns (o: int)
    requires 0 <= k <= j <= |p|
    requires forall m :: k <= m <= j ==> Nesting(p, m, j) <= 0
    requires Nesting(p, 0, j) > 0
    ensures 0 <= o < k && Nesting(p, o, j) == 1 && Nesting(p, o + 1, j) == 0
    ensures forall m :: o < m <= j ==> Nesting(p, m, j) <= 0
    decreases k
  {
    NestingSplit(p, k - 1, k, j);
    if Nesting(p, k - 1, j) > 0 {
      o := k - 1;
    } else {
      o := LastRise(p, k - 1, j);
    }
  }

  /** In a well-bracketed program every JF has a matching JB. */
  lemma ClosingExists(p: seq<Instruction>, open: int)
    requires WellBracketed(p) && 0 <= open < |p| && p[open] == JF
    ensures exists c :: Matches(p, open, c)
  {
    NestingSplit(p, 0, open + 1, |p|);
    assert Nesting(p, 0, open) >= 0;
    var c := FirstDip(p, open + 1, open + 1, |p|);
    assert Matches(p, open, c);
  }

  /** In a well-bracketed program every JB has a matching JF. */
  lemma OpeningExists(p: seq<Instruction>, close: int)
    requires WellBracketed(p) && 0 <= close < |p| && p[close] == JB
    ensures exists o :: Matches(p, o, close)
  {
    assert Nesting(p, 0, close + 1) >= 0;
    var o := LastRise(p, close, close);
    NestingSplit(p, o, o + 1, close);
    var inner := o + 1;
    forall m | inner <= m <= close
      ensures Nesting(p, inner, m) >= 0
    {
      NestingSplit(p, inner, m, close);
    }
    assert Matches(p, o, close);
  }

  /** A program without brackets is well-bracketed: its depth is zero throughout. */
  lemma {:induction false} NoBracketsFlat(p: seq<Instruction>, k: int)
    requires forall m :: 0 <= m < |p| ==> p[m] != JF && p[m] != JB
    requires 0 <= k <= |p|
    ensures Nesting(p, 0, k) == 0
  {
    if k > 0 {
      NoBracketsFlat(p, k - 1);
    }
  }

  lemma NoBracketsWellBracketed(p: seq<Instruction>)
    requires forall m :: 0 <= m < |p| ==> p[m] != JF && p[m] != JB
    ensures WellBracketed(p)
  {
    forall k | 0 <= k <= |p|
      ensures Nesting(p, 0, k) == 0
    {
      NoBracketsFlat(p, k);
    }
  }
}

=== FILE: interpreter.dfy ===
/** The interpreter object: a loaded program with its tape, pointers, counter and output,
    updated in place one instruction at a time. */
module Interpreter {
  import opened Opcodes
  import opened Loader
  import opened Brackets
  import opened Semantics

  class Program {
    const instructions: seq<Instruction>
    const memory: array<Byte>
    var dp: int
    var pc: nat
    var output: string
    var counter: nat
    /** What is left of the standard input. */
    var input: seq<Byte>

    ghost predicate Valid()
      reads this
    {
      memory.Length == TapeSize
    }

    /** The interpreter state these fields stand for. */
    ghost function Current(): State
      reads this, memory
    {
      State(memory[..], dp, pc, output, counter, input)
    }

    /** `load`, past the file reading: scan the lines into instructions, then start on a
        zeroed tape with the data pointer, pc and counter at 0. */
    constructor (lines: seq<string>, stdin: seq<Byte>)
      ensures Valid() && fresh(memory)
      ensures instructions == Load(Text(lines))
      ensures Current() == Initial(stdin)
    {
      var scanned := ScanLines(lines);
      instructions := scanned;
      memory := new Byte[TapeSize](_ => 0);
      dp, pc, output, counter, input := 0, 0, "", 0, stdin;
      new;
      assert memory[..] == seq(TapeSize, _ => 0);
    }

    /** Scan right from the JF at pc, counting nesting, for the JB that closes it; the
        target is the index just past that JB. The scan stops at the end of the program:
        there the nesting count can no longer change, so the code's own loop goes on until
        its i32 index overflows, and `found` is false exactly when no JB matches. */
    method JumpForward() returns (found: bool, target: nat)
      requires pc < |instructions| && instructions[pc] == JF
      ensures found <==> exists c :: Matches(instructions, pc, c)
      ensures found ==> target >= 1 && Matches(instructions, pc, target - 1)
    {
      ghost var start := pc + 1;
      var val := 1;
      var index := pc;
      while val > 0 && index < |instructions|
        invariant pc <= index <= |instructions|
        invariant index < |instructions| ==> val == 1 + Nesting(instructions, start, index + 1)
        invariant index == |instructions| ==> val == 1 + Nesting(instructions, start, |instructions|)
        invariant forall k :: start <= k <= index ==> Nesting(instructions, start, k) >= 0
        decreases |instructions| - index
      {
        index := index + 1;
        if index < |instructions| {
          match instructions[index] {
            case JF => val := val + 1;
            case JB => val := val - 1;
            case _ =>
          }
        }
      }
      found := val == 0;
      target := index + 1;
      if found {
        assert Matches(instructions, pc, index);
      } else {
        forall c
          ensures !Matches(instructions, pc, c)
        {
          if Matches(instructions, pc, c) {
            NestingSplit(instructions, start, c, c + 1);
            assert false;
          }
        }
      }
    }

    /** Scan left from the JB at pc, counting nesting, for the JF that opens it; the
        target is the index just past that JF. The scan stops before the start of the
        program, where the code's own loop goes on until its i32 index overflows, and
        `found` is false exactly when
        no JF matches. */
    method JumpBackwards() returns (found: bool, target: nat)
      requires pc < |instructions| && instructions[pc] == JB
      ensures found <==> exists o :: Matches(instructions, o, pc)
      ensures found ==> target >= 1 && Matches(instructions, target - 1, pc)
    {
      var val := 1;
      var index: int := pc;
      while val > 0 && index >= 0
        invariant -1 <= index <= pc
        invariant index >= 0 ==> val == 1 - Nesting(instructions, index, pc)
        invariant index == -1 ==> val == 1 - Nesting(instructions, 0, pc)
        invariant forall k :: index < k <= pc ==> Nesting(instructions, k, pc) <= 0
        decreases index
      {
        if index > 0 {
          NestingSplit(instructions, index - 1, index, pc);
        }
        index := index - 1;
        if 0 <= index < |instructions| {
          match instructions[index] {
            case JF => val := val - 1;
            case JB => val := val + 1;
            case _ =>
          }
        }
      }
      found := val == 0;
      target := index + 1;
      if found {
        var inner := index + 1;
        NestingSplit(instructions, index, inner, pc);
        forall m | inner <= m <= pc
          ensures Nesting(instructions, inner, m) >= 0
        {
          NestingSplit(instructions, inner, m, pc);
        }
        assert Matches(instructions, index, pc);
      } else {
        forall o
          ensures !Matches(instructions, o, pc)
        {
          if Matches(instructions, o, pc) {
            NestingSplit(instructions, o, o + 1, pc);
            assert false;
          }
        }
      }
    }

    /** Fetch and execute one instruction. */
    method Step() returns (status: Status)
      requires Valid() && CanStep(instructions, Current())
      modifies this, memory
      ensures Valid()
      ensures Current() == Semantics.Step(instructions, old(Current()))
      ensures status == StepStatus(instructions, old(Current()))
      ensures status.Err? <==> old(pc) >= |instructions|
    {
      counter := counter + 1;
      if pc < |instructions| {
        match instructions[pc] {
          case MR =>
            dp := dp + 1;
            pc := pc + 1;
          case ML =>
            dp := dp - 1;
            pc := pc + 1;
          case IP =>
            memory[dp] := WrapInc(memory[dp]);
            pc := pc + 1;
          case DP =>
            memory[dp] := WrapDec(memory[dp]);
            pc := pc + 1;
          case OP =>
            output := output + [memory[dp] as char];
            pc := pc + 1;
          case RP =>
            if |input| > 0 {
              memory[dp] := input[0];
              input := input[1..];
            }
            pc := pc + 1;
          case JF =>
            if memory[dp] == 0 {
              var found, target := JumpForward();
              MatchIsMutual(instructions, pc, target - 1);
              pc := target;
            } else {
              pc := pc + 1;
            }
          case JB =>
            if memory[dp] != 0 {
              var found, target := JumpBackwards();
              MatchIsMutual(instructions, target - 1, pc);
              pc := target;
            } else {
              pc := pc + 1;
            }
        }
        status := Ok;
      } else {
        status := Err(NoMoreInstructions);
      }
    }

    /** Step until a step fails or leaves pc at or past the end of the program, taking at
        most `fuel` steps; stop before an instruction that would index the tape out of
        bounds, and before a jump whose scan finds no bracket within the program. */
    method Run(fuel: nat) returns (outcome: Outcome)
      requires Valid()
      modifies this, memory
      ensures Valid()
      ensures RunResult(Current(), outcome) == Semantics.Run(instructions, old(Current()), fuel)
    {
      var remaining := fuel;
      while true
        invariant Valid()
        invariant Semantics.Run(instructions, Current(), remaining)
               == Semantics.Run(instructions, old(Current()), fuel)
        decreases remaining
      {
        if remaining == 0 {
          return OutOfFuel;
        }
        if pc < |instructions| && TouchesCell(instructions[pc], input) && !(0 <= dp < memory.Length) {
          return TapeFault;
        }
        if pc < |instructions| && 0 <= dp < memory.Length {
          // Run the scan the jump would run, to see whether it lands within the program.
          // This extra scan belongs to the model: the code scans once, inside `step`.
          var found, target := true, 0;
          if instructions[pc] == JF && memory[dp] == 0 {
            found, target := JumpForward();
          } else if instructions[pc] == JB && memory[dp] != 0 {
            found, target := JumpBackwards();
          }
          if !found {
            return Unmatched;
          }
        }
        var status := Step();
        if status.Err? {
          return Failed(status.msg);
        }
        if pc >= |instructions| {
          return Finished;
        }
        remaining := remaining - 1;
      }
    }
  }
}

=== FILE: loader.dfy ===
/** Loading: the translation of a source text into the flat instruction list. */
module Loader {
  import opened Opcodes

  /** What one source character contributes to the program: its instruction, or nothing. */
  function Decoded(ch: char): seq<Instruction>
  {
    match Decode(ch)
    case Some(i) => [i]
    case None => []
  }

  /** The program a source text loads to, scanning the characters left to right: one
      instruction per opcode character, none for anything else. */
  function Load(text: string): (prog: seq<Instruction>)
    ensures |prog| == |OpcodeChars(text)| <= |text|
  {
    if text == [] then [] else Decoded(text[0]) + Load(text[1..])
  }

  /** The opcode characters of a text, in order; everything else is a comment. */
  function OpcodeChars(text: string): (ops: string)
    ensures |ops| <= |text|
    ensures forall k :: 0 <= k < |ops| ==> IsOpcode(ops[k])
  {
    if text == [] then []
    else (if IsOpcode(text[0]) then [text[0]] else []) + OpcodeChars(text[1..])
  }

  /** The source text that spells a program, one character per instruction. */
  function Show(prog: seq<Instruction>): (text: string)
    ensures |text| == |prog|
  {
    if prog == [] then [] else [Spelling(prog[0])] + Show(prog[1..])
  }

  /** A file's contents given its lines, each one ended by a line break. */
  function Text(lines: seq<string>): string
  {
    if lines == [] then [] else Text(lines[..|lines| - 1]) + lines[|lines| - 1] + "\n"
  }

  /** The loader proper: for every line, for every character, push the instruction
      it spells and skip anything else. */
  method ScanLines(lines: seq<string>) returns (prog: seq<Instruction>)
    ensures prog == Load(Text(lines))
  {
    prog := [];
    for i := 0 to |lines|
      invariant prog == Load(Text(lines[..i]))
    {
      var line := lines[i];
      ghost var before := Text(lines[..i]);
      ScanStart(before, line);
      for j := 0 to |line|
        invariant prog == Load(before + line[..j])
      {
        match Decode(line[j]) {
          case Some(inst) => prog := prog + [inst];
          case None =>
        }
        ScanStep(before, line, j);
      }
      ScanEndOfLine(lines, i);
    }
    assert lines[..|lines|] == lines;
  }

  lemma ScanStart(before: string, line: string)
    ensures Load(before + line[..0]) == Load(before)
  {
    assert before + line[..0] == before;
  }

  lemma ScanStep(before: string, line: string, j: int)
    requires 0 <= j < |line|
    ensures Load(before + line[..j + 1]) == Load(before + line[..j]) + Decoded(line[j])
  {
    assert before + line[..j + 1] == before + line[..j] + [line[j]];
    LoadAppend(before + line[..j], [line[j]]);
  }

  lemma ScanEndOfLine(lines: seq<string>, i: int)
    requires 0 <= i < |lines|
    ensures Load(Text(lines[..i]) + lines[i][..|lines[i]|]) == Load(Text(lines[..i + 1]))
  {
    assert Load("\n") == [];
    assert lines[i][..|lines[i]|] == lines[i];
    assert lines[..i + 1][..i] == lines[..i];
    LoadAppend(Text(lines[..i]) + lines[i], "\n");
  }

  /** Loading distributes over concatenation: where the text is cut (at a line
      break, say) does not matter. */
  lemma {:induction false} LoadAppend(a: string, b: string)
    ensures Load(a + b) == Load(a) + Load(b)
  {
    if a == [] {
      assert a + b == b;
    } else {
      assert (a + b)[1..] == a[1..] + b;
      LoadAppend(a[1..], b);
    }
  }

  lemma {:induction false} ShowAppend(p: seq<Instruction>, q: seq<Instruction>)
    ensures Show(p + q) == Show(p) + Show(q)
  {
    if p == [] {
      assert p + q == q;
    } else {
      assert (p + q)[1..] == p[1..] + q;
      ShowAppend(p[1..], q);
    }
  }

  /** Loading the spelling of a program gives the program back. */
  lemma {:induction false} LoadShow(prog: seq<Instruction>)
    ensures Load(Show(prog)) == prog
  {
    if prog != [] {
      var text := Show(prog);
      assert text[1..] == Show(prog[1..]);
      LoadShow(prog[1..]);
    }
  }

  /** Spelling a loaded program gives back exactly the opcode characters of the
      text, in their original order. */
  lemma {:induction false} ShowLoad(text: string)
    ensures Show(Load(text)) == OpcodeChars(text)
  {
    if text != [] {
      ShowAppend(Decoded(text[0]), Load(text[1..]));
      match Decode(text[0]) {
        case Some(i) => DecodeOnlySpelling(text[0], i);
        case None =>
      }
      ShowLoad(text[1..]);
    }
  }

  /** Dropping every comment character before loading changes nothing. */
  lemma LoadIgnoresComments(text: string)
    ensures Load(OpcodeChars(text)) == Load(text)
  {
    ShowLoad(text);
    LoadShow(Load(text));
  }

  /** A text with no opcode character loads to the empty program. */
  lemma {:induction false} CommentLoadsNothing(text: string)
    requires forall k :: 0 <= k < |text| ==> !IsOpcode(text[k])
    ensures Load(text) == []
  {
    if text != [] {
      assert !IsOpcode(text[0]);
      CommentLoadsNothing(text[1..]);
    }
  }
}

=== FILE: opcodes.dfy ===
/** The eight opcodes of the tape language and the characters that spell them. */
module Opcodes {

  datatype Option<T> = None | Some(value: T)

  /** One instruction of a loaded program. The names are the interpreter's own:
      DP decrements the current cell; it has nothing to do with the data pointer. */
  datatype Instruction =
    | MR  // '>' move the data pointer one cell to the right
    | ML  // '<' move the data pointer one cell to the left
    | IP  // '+' increment the current cell
    | DP  // '-' decrement the current cell
    | OP  // '.' output the current cell
    | RP  // ',' read one input byte into the current cell
    | JF  // '[' if the current cell is zero, jump past the matching ']'
    | JB  // ']' if the current cell is nonzero, jump back past the matching '['

  /** The instruction a source character stands for, or None for a comment character. */
  function Decode(ch: char): (r: Option<Instruction>)
    ensures r.Some? <==> ch in "><+-.,[]"
  {
    match ch
    case '>' => Some(MR)
    case '<' => Some(ML)
    case '+' => Some(IP)
    case '-' => Some(DP)
    case '.' => Some(OP)
    case ',' => Some(RP)
    case '[' => Some(JF)
    case ']' => Some(JB)
    case _ => None
  }

  predicate IsOpcode(ch: char)
  {
    Decode(ch).Some?
  }

  /** The one character that spells an instruction; Decode reads it back. */
  function Spelling(i: Instruction): (ch: char)
    ensures Decode(ch) == Some(i)
  {
    match i
    case MR => '>'
    case ML => '<'
    case IP => '+'
    case DP => '-'
    case OP => '.'
    case RP => ','
    case JF => '['
    case JB => ']'
  }

  /** Decoding is injective: a character that decodes to an instruction is its spelling. */
  lemma DecodeOnlySpelling(ch: char, i: Instruction)
    requires Decode(ch) == Some(i)
    ensures ch == Spelling(i)
  {
  }
}

=== FILE: scenarios.dfy ===
/** Whole-program facts about small concrete programs, from loading to the end of the run. */
module Scenarios {
  import opened Opcodes
  import opened Loader
  import opened Brackets
  import opened Semantics

  /** `,.` with the byte 65 on the input echoes "A", after exactly two counted steps. */
  lemma EchoOneByte()
    ensures Load(",.") == [RP, OP] && WellBracketed([RP, OP])
    ensures var r := Run([RP, OP], Initial([65]), 2);
      r.outcome == Finished && r.final.output == "A" && r.final.memory[0] == 65
      && r.final.input == [] && r.final.counter == 2
  {
  }

  /** The loaded form of `++>+++++[<+>-]<`: 2 into cell 0, 5 into cell 1, then a loop
      that moves cell 1 into cell 0. */
  const AddProgram: seq<Instruction> := [IP, IP, MR, IP, IP, IP, IP, IP, JF, ML, IP, MR, DP, JB, ML]

  /** The four pieces of `++>+++++[<+>-]<`, spelled separately. */
  lemma SpellHead()
    ensures Show([IP, IP, MR, IP]) == "++>+"
  {
  }

  lemma SpellIncrements()
    ensures Show([IP, IP, IP, IP]) == "++++"
  {
  }

  lemma SpellLoopHead()
    ensures Show([JF, ML, IP, MR]) == "[<+>"
  {
  }

  lemma SpellLoopTail()
    ensures Show([DP, JB, ML]) == "-]<"
  {
  }

  /** `++>+++++[<+>-]<` loads to AddProgram. */
  lemma AddProgramLoads()
    ensures Load("++>+++++[<+>-]<") == AddProgram
  {
    assert "++>+++++[<+>-]<" == "++>+" + "++++" + "[<+>" + "-]<";
    SpellHead();
    SpellIncrements();
    SpellLoopHead();
    SpellLoopTail();
    var a, b, c, d := [IP, IP, MR, IP], [IP, IP, IP, IP], [JF, ML, IP, MR], [DP, JB, ML];
    assert AddProgram == a + b + c + d;
    ShowAppend(a + b + c, d);
    ShowAppend(a + b, c);
    ShowAppend(a, b);
    LoadShow(AddProgram);
  }

  /** The `[` at 8 and the `]` at 13 match, and the program is well-bracketed. */
  lemma AddProgramShape()
    ensures Matches(AddProgram, 8, 13) && WellBracketed(AddProgram)
  {
    var p := AddProgram;
    for k := 0 to 15
      invariant forall j :: 0 <= j <= k ==> Nesting(p, 0, j) == if 8 < j <= 13 then 1 else 0
    {
    }
    assert Nesting(p, 9, 13) == 0;
  }

  /** A run that can take its next step without ending is that step followed by the
      rest of the run. */
  lemma RunUnfolds(p: seq<Instruction>, s: State, t: State, fuel: nat)
    requires WellBracketed(p) && fuel > 0 && CellSafe(p, s) && s.pc < |p|
    requires CanStep(p, s) ==> Step(p, s) == t
    requires t.pc < |p|
    ensures Run(p, s, fuel) == Run(p, t, fuel - 1)
  {
    WellBracketedCanStep(p, s);
  }

  /** Inside the loop of AddProgram, at `pc`, with cell 1 still to be moved and no
      wrap-around to come. */
  predicate InLoop(s: State, pc: nat)
  {
    s.pc == pc && |s.memory| == TapeSize && 1 <= s.memory[1] && s.memory[0] as int + s.memory[1] as int < 256
  }

  /** The state after `<+>-`, run from pc 9 on cell 1. */
  function AfterPassBody(s: State): State
    requires InLoop(s, 9)
  {
    s.(memory := s.memory[0 := s.memory[0] + 1][1 := s.memory[1] - 1], pc := 13, counter := s.counter + 4)
  }

  lemma PassBody(s: State, fuel: nat)
    requires InLoop(s, 9) && s.dp == 1 && fuel >= 5
    ensures WellBracketed(AddProgram)
    ensures Run(AddProgram, s, fuel) == Run(AddProgram, AfterPassBody(s), fuel - 4)
  {
    AddProgramShape();
    var p := AddProgram;
    var a, b := s.memory[0], s.memory[1];
    var s1 := s.(dp := 0, pc := 10, counter := s.counter + 1);
    var s2 := s1.(memory := s.memory[0 := a + 1], pc := 11, counter := s.counter + 2);
    var s3 := s2.(dp := 1, pc := 12, counter := s.counter + 3);
    RunUnfolds(p, s, s1, fuel);
    RunUnfolds(p, s1, s2, fuel - 1);
    RunUnfolds(p, s2, s3, fuel - 2);
    RunUnfolds(p, s3, AfterPassBody(s), fuel - 3);
  }

  /** One pass of `[<+>-]` per unit in cell 1: the loop adds cell 1 into cell 0 and
      leaves pc just past the closing bracket, after five steps a pass. */
  lemma {:induction false} AddLoop(s: State, fuel: nat)
    requires InLoop(s, 9) && s.dp == 1
    requires fuel >= 5 * s.memory[1] as int + 1
    ensures WellBracketed(AddProgram)
    ensures Run(AddProgram, s, fuel)
         == Run(AddProgram,
                s.(memory := s.memory[0 := s.memory[0] + s.memory[1]][1 := 0], pc := 14,
                   counter := s.counter + 5 * s.memory[1] as int),
                fuel - 5 * s.memory[1] as int)
    decreases s.memory[1]
  {
    AddProgramShape();
    var p := AddProgram;
    var a, b := s.memory[0], s.memory[1];
    PassBody(s, fuel);
    var s4 := AfterPassBody(s);
    if b == 1 {
      var s5 := s4.(pc := 14, counter := s.counter + 5);
      RunUnfolds(p, s4, s5, fuel - 4);
      assert s5.memory == s.memory[0 := a + b][1 := 0];
    } else {
      var s5 := s4.(pc := 9, counter := s.counter + 5);
      MatchIsMutual(p, 8, 13);
      RunUnfolds(p, s4, s5, fuel - 4);
      AddLoop(s5, fuel - 5);
      assert s5.memory[0 := s5.memory[0] + s5.memory[1]][1 := 0] == s.memory[0 := a + b][1 := 0];
    }
  }

  /** At pc `k` of the straight-line prologue with the two cells holding c0 and c1. */
  predicate AtPrologue(s: State, k: nat, c0: Byte, c1: Byte)
  {
    s.pc == k && |s.memory| == TapeSize && s.memory[0] == c0 && s.memory[1] == c1
  }

  /** `++>`: two increments of cell 0, then a move to cell 1. */
  lemma PrologueHead(s: State, fuel: nat)
    requires AtPrologue(s, 0, 0, 0) && s.dp == 0 && fuel >= 4
    ensures WellBracketed(AddProgram)
    ensures Run(AddProgram, s, fuel)
         == Run(AddProgram, s.(memory := s.memory[0 := 2], dp := 1, pc := 3, counter := s.counter + 3), fuel - 3)
  {
    AddProgramShape();
    var p := AddProgram;
    var t1 := s.(memory := s.memory[0 := 1], pc := 1, counter := s.counter + 1);
    var t2 := s.(memory := s.memory[0 := 2], pc := 2, counter := s.counter + 2);
    RunUnfolds(p, s, t1, fuel);
    RunUnfolds(p, t1, t2, fuel - 1);
    RunUnfolds(p, t2, t2.(dp := 1, pc := 3, counter := s.counter + 3), fuel - 2);
  }

  /** `+++++` from the k-th increment on: cell 1 ends at 5. */
  lemma {:induction false} PrologueFives(s: State, k: nat, fuel: nat)
    requires k <= 5 && AtPrologue(s, 3 + k, 2, k) && s.dp == 1 && fuel >= 6 - k
    ensures WellBracketed(AddProgram)
    ensures Run(AddProgram, s, fuel)
         == Run(AddProgram, s.(memory := s.memory[1 := 5], pc := 8, counter := s.counter + 5 - k), fuel - (5 - k))
    decreases 5 - k
  {
    AddProgramShape();
    if k < 5 {
      var t := s.(memory := s.memory[1 := k + 1], pc := 4 + k, counter := s.counter + 1);
      RunUnfolds(AddProgram, s, t, fuel);
      PrologueFives(t, k + 1, fuel - 1);
      assert t.memory[1 := 5] == s.memory[1 := 5];
    } else {
      assert s.memory[1 := 5] == s.memory;
    }
  }

  /** The first nine steps, `++>+++++[`: cell 0 holds 2, cell 1 holds 5, and the `[`
      falls through into the loop. */
  lemma AddPrologue(s: State, fuel: nat)
    requires AtPrologue(s, 0, 0, 0) && s.dp == 0 && fuel >= 10
    ensures WellBracketed(AddProgram)
    ensures Run(AddProgram, s, fuel)
         == Run(AddProgram, s.(memory := s.memory[0 := 2][1 := 5], dp := 1, pc := 9, counter := s.counter + 9), fuel - 9)
  {
    PrologueHead(s, fuel);
    var t3 := s.(memory := s.memory[0 := 2], dp := 1, pc := 3, counter := s.counter + 3);
    PrologueFives(t3, 0, fuel - 3);
    var t8 := t3.(memory := t3.memory[1 := 5], pc := 8, counter := s.counter + 8);
    RunUnfolds(AddProgram, t8, t8.(pc := 9, counter := s.counter + 9), fuel - 8);
  }

  /** `++>+++++[<+>-]<` on a zeroed tape ends with 7 in cell 0 and 0 in cell 1, the data
      pointer back on cell 0 and pc at the end, after 35 counted steps. */
  lemma AddTwoAndFive(input: seq<Byte>, fuel: nat)
    requires fuel >= 35
    ensures WellBracketed(AddProgram)
    ensures var s := Initial(input);
      Run(AddProgram, s, fuel)
        == RunResult(s.(memory := s.memory[0 := 7][1 := 0], pc := 15, counter := 35), Finished)
  {
    var s := Initial(input);
    AddPrologue(s, fuel);
    var m := s.memory;
    var s9 := s.(memory := m[0 := 2][1 := 5], dp := 1, pc := 9, counter := 9);
    AddLoop(s9, fuel - 9);
    var t := s9.(memory := m[0 := 7][1 := 0], pc := 14, counter := 34);
    assert s9.memory[0 := s9.memory[0] + s9.memory[1]][1 := 0] == t.memory;
    RunFinal(t, fuel - 34);
  }

  /** The final `<` moves back to cell 0 and the run finishes at the end of the program. */
  lemma RunFinal(t: State, fuel: nat)
    requires t.pc == 14 && t.dp == 1 && |t.memory| == TapeSize && fuel >= 1
    ensures WellBracketed(AddProgram)
    ensures Run(AddProgram, t, fuel) == RunResult(t.(dp := 0, pc := 15, counter := t.counter + 1), Finished)
  {
    AddProgramShape();
    WellBracketedCanStep(AddProgram, t);
  }

  /** `<,` with no input: the data pointer leaves the tape, but `,` finds no byte to
      store and so never indexes the tape; the run finishes after two counted steps. */
  lemma ReadNothingOffTape(fuel: nat)
    requires fuel >= 2
    ensures var s := Initial([]);
      Run([ML, RP], s, fuel) == RunResult(s.(dp := -1, pc := 2, counter := 2), Finished)
  {
  }

  /** `+[` on a zeroed tape: the `[` has no match, but the cell is nonzero, so the jump is
      never taken and the run finishes; the program is not well-bracketed. */
  lemma UnmatchedJumpNotTaken(input: seq<Byte>, fuel: nat)
    requires fuel >= 2
    ensures !WellBracketed([IP, JF])
    ensures var s := Initial(input);
      Run([IP, JF], s, fuel) == RunResult(s.(memory := s.memory[0 := 1], pc := 2, counter := 2), Finished)
  {
    assert Nesting([IP, JF], 0, 2) == 1;
  }

  /** `]` on a zeroed tape: the jump back is not taken and the run finishes after one step. */
  lemma UnmatchedJumpBackNotTaken(input: seq<Byte>, fuel: nat)
    requires fuel >= 1
    ensures !WellBracketed([JB])
    ensures var s := Initial(input);
      Run([JB], s, fuel) == RunResult(s.(pc := 1, counter := 1), Finished)
  {
    assert Nesting([JB], 0, 1) == -1;
  }

  /** `[` on a zeroed tape takes a jump that has no bracket to land after: the run stops
      there, before counting the step whose scan finds no bracket within the program. */
  lemma UnmatchedJumpTaken(input: seq<Byte>, fuel: nat)
    requires fuel >= 1
    ensures var s := Initial(input);
      Run([JF], s, fuel) == RunResult(s, Unmatched)
  {
  }

  /** `+]-[`: the `]` is taken with no `[` before it. The model stops there as `Unmatched`
      after one step; the code's scan instead overflows its i32 index, which panics in a
      debug build and in a release build wraps round to land after the `[` at 3. */
  lemma WrappedScanNotFollowed(input: seq<Byte>, fuel: nat)
    requires fuel >= 2
    ensures var s := Initial(input);
      Run([IP, JB, DP, JF], s, fuel)
        == RunResult(s.(memory := s.memory[0 := 1], pc := 1, counter := 1), Unmatched)
  {
    var p := [IP, JB, DP, JF];
    forall o
      ensures !Matches(p, o, 1)
    {
    }
  }
}

=== FILE: semantics.dfy ===
/** The meaning of a program: one step of the fetch/execute cycle, and running to completion,
    as functions on an interpreter state. */
module Semantics {
  import opened Opcodes
  import opened Brackets

  /** Number of cells on the tape. */
  const TapeSize: nat := 30000

  /** The message of the error `step` reports when there is no instruction at pc. */
  const NoMoreInstructions: string := "No more instruction left"

  /** An unsigned 8-bit cell value. */
  type Byte = x: int | 0 <= x < 256

  /** `(cell as u16 + 1) as u8`: the 16-bit sum cannot overflow, the cast keeps the low byte.
      The result is the successor of c modulo 256. */
  function WrapInc(c: Byte): (r: Byte)
    ensures (r - c) % 256 == 1
  {
    (c + 1) % 256
  }

  /** `checked_sub(1)`, with 255 when the subtraction would go below zero. The result is
      the predecessor of c modulo 256. */
  function WrapDec(c: Byte): (r: Byte)
    ensures (c - r) % 256 == 1
  {
    if c == 0 then 255 else c - 1
  }

  /** Everything `step` reads and writes. `input` is what is left of the standard input;
      `output` accumulates every byte written, as a character. */
  datatype State = State(
    memory: seq<Byte>,
    dp: int,
    pc: nat,
    output: string,
    counter: nat,
    input: seq<Byte>)

  /** The state a freshly loaded program starts from. */
  function Initial(input: seq<Byte>): (s: State)
    ensures |s.memory| == TapeSize && forall i :: 0 <= i < |s.memory| ==> s.memory[i] == 0
    ensures s.dp == 0 && s.pc == 0 && s.counter == 0
    ensures s.output == [] && s.input == input
  {
    State(seq(TapeSize, _ => 0), 0, 0, "", 0, input)
  }

  datatype Status = Ok | Err(msg: string)

  /** What `step` returns: it fails exactly when there is no instruction at pc. */
  function StepStatus(p: seq<Instruction>, s: State): Status
  {
    if s.pc < |p| then Ok else Err(NoMoreInstructions)
  }

  /** Whether executing i indexes the current cell, given what is left of the input: every
      instruction but the moves does, except `,` with no byte left to store. */
  predicate TouchesCell(i: Instruction, input: seq<Byte>)
  {
    i != MR && i != ML && (i == RP ==> |input| > 0)
  }

  /** The next instruction does not index the tape out of bounds (which would panic). */
  predicate CellSafe(p: seq<Instruction>, s: State)
  {
    s.pc < |p| && TouchesCell(p[s.pc], s.input) ==> 0 <= s.dp < |s.memory|
  }

  /** A jump the next instruction takes has a bracket to land after (otherwise the scan
      for it finds no bracket within the program, and its i32 index overflows). */
  ghost predicate JumpResolvable(p: seq<Instruction>, s: State)
  {
    s.pc < |p| && 0 <= s.dp < |s.memory| ==>
      (p[s.pc] == JF && s.memory[s.dp] == 0 ==> exists c :: Matches(p, s.pc, c)) &&
      (p[s.pc] == JB && s.memory[s.dp] != 0 ==> exists o :: Matches(p, o, s.pc))
  }

  /** The next step neither panics nor hangs. */
  ghost predicate CanStep(p: seq<Instruction>, s: State)
  {
    CellSafe(p, s) && JumpResolvable(p, s)
  }

  /** One fetch/execute step. The counter is bumped before the fetch, so a step that
      finds no instruction still counts; it changes nothing else. */
  ghost function Step(p: seq<Instruction>, s: State): (t: State)
    requires CanStep(p, s)
    ensures t.counter == s.counter + 1 && |t.memory| == |s.memory|
    ensures s.output <= t.output
    ensures t.input == s.input || (|s.input| > 0 && t.input == s.input[1..])
  {
    var u := s.(counter := s.counter + 1);
    if s.pc >= |p| then u
    else
      var next := s.pc + 1;
      match p[s.pc]
      case MR => u.(dp := s.dp + 1, pc := next)
      case ML => u.(dp := s.dp - 1, pc := next)
      case IP => u.(memory := s.memory[s.dp := WrapInc(s.memory[s.dp])], pc := next)
      case DP => u.(memory := s.memory[s.dp := WrapDec(s.memory[s.dp])], pc := next)
      case OP => u.(output := s.output + [s.memory[s.dp] as char], pc := next)
      case RP =>
        if |s.input| > 0 then u.(memory := s.memory[s.dp := s.input[0]], input := s.input[1..], pc := next)
        else u.(pc := next)
      case JF =>
        if s.memory[s.dp] == 0 then u.(pc := ClosingBracket(p, s.pc) + 1) else u.(pc := next)
      case JB =>
        if s.memory[s.dp] != 0 then u.(pc := OpeningBracket(p, s.pc) + 1) else u.(pc := next)
  }

  /** How a run ends: the program ran off its end (`Ok`), `step` failed (`Err`), the next
      instruction would index the tape out of bounds, the next instruction is a jump with
      no bracket to land after (where the code's scan runs until its i32 index overflows), or
      the step budget ran out. */
  datatype Outcome = Finished | Failed(msg: string) | TapeFault | Unmatched | OutOfFuel

  datatype RunResult = RunResult(final: State, outcome: Outcome)

  /** `run`: step until a step fails or leaves pc at or past the end, taking at most
      `fuel` steps. The run never loses tape cells, never shortens the output and never
      takes back a count. */
  ghost function Run(p: seq<Instruction>, s: State, fuel: nat): (r: RunResult)
    ensures s.counter <= r.final.counter <= s.counter + fuel
    ensures |r.final.memory| == |s.memory| && s.output <= r.final.output
    decreases fuel
  {
    if fuel == 0 then RunResult(s, OutOfFuel)
    else if !CellSafe(p, s) then RunResult(s, TapeFault)
    else if !JumpResolvable(p, s) then RunResult(s, Unmatched)
    else
      var t := Step(p, s);
      match StepStatus(p, s)
      case Err(e) => RunResult(t, Failed(e))
      case Ok => if t.pc >= |p| then RunResult(t, Finished) else Run(p, t, fuel - 1)
  }

  /** In a well-bracketed program every jump has somewhere to land. */
  lemma WellBracketedCanStep(p: seq<Instruction>, s: State)
    requires WellBracketed(p) && CellSafe(p, s)
    ensures CanStep(p, s)
  {
    if s.pc < |p| && p[s.pc] == JF {
      ClosingExists(p, s.pc);
    }
    if s.pc < |p| && p[s.pc] == JB {
      OpeningExists(p, s.pc);
    }
  }

  // ---------------------------------------------------------------------------
  // Byte arithmetic

  /** Increment is addition modulo 256 and decrement is subtraction modulo 256. */
  lemma WrapArithmetic(c: Byte)
    ensures WrapInc(c) == (c as int + 1) % 256 && WrapDec(c) == (c as int - 1) % 256
    ensures WrapInc(255) == 0 && WrapDec(0) == 255
  {
  }

  /** Increment and decrement undo each other on every byte. */
  lemma WrapInverse(c: Byte)
    ensures WrapDec(WrapInc(c)) == c && WrapInc(WrapDec(c)) == c
  {
  }

  // ---------------------------------------------------------------------------
  // One step

  /** Every step bumps the counter by one; it fails exactly when pc is past the last
      instruction, and a failing step changes nothing but the counter. */
  lemma StepCounter(p: seq<Instruction>, s: State)
    requires CanStep(p, s)
    ensures Step(p, s).counter == s.counter + 1
    ensures StepStatus(p, s).Err? <==> s.pc >= |p|
    ensures StepStatus(p, s).Err? ==> Step(p, s) == s.(counter := s.counter + 1)
  {
  }

  /** What every step preserves: the tape keeps its size and only the current cell may
      change, output only grows (by at most one character), input is only consumed from
      the front, and pc never goes past the end of the program. */
  lemma StepInvariants(p: seq<Instruction>, s: State)
    requires CanStep(p, s)
    ensures var t := Step(p, s);
      && |t.memory| == |s.memory|
      && (forall i :: 0 <= i < |s.memory| && i != s.dp ==> t.memory[i] == s.memory[i])
      && s.output <= t.output && |t.output| <= |s.output| + 1
      && (t.input == s.input || (|s.input| > 0 && t.input == s.input[1..]))
      && (s.pc <= |p| ==> t.pc <= |p|)
  {
  }

  /** `+` adds one modulo 256 to the current cell (255 becomes 0) and touches nothing else. */
  lemma StepIncrement(p: seq<Instruction>, s: State)
    requires CanStep(p, s) && s.pc < |p| && p[s.pc] == IP
    ensures var t := Step(p, s);
      && 0 <= s.dp < |s.memory| && |t.memory| == |s.memory|
      && t.memory[s.dp] == (s.memory[s.dp] as int + 1) % 256
      && (s.memory[s.dp] == 255 ==> t.memory[s.dp] == 0)
      && (forall i :: 0 <= i < |s.memory| && i != s.dp ==> t.memory[i] == s.memory[i])
      && t.dp == s.dp && t.pc == s.pc + 1 && t.output == s.output && t.input == s.input
  {
  }

  /** `-` subtracts one modulo 256 from the current cell (0 becomes 255) and touches nothing else. */
  lemma StepDecrement(p: seq<Instruction>, s: State)
    requires CanStep(p, s) && s.pc < |p| && p[s.pc] == DP
    ensures var t := Step(p, s);
      && 0 <= s.dp < |s.memory| && |t.memory| == |s.memory|
      && t.memory[s.dp] == (s.memory[s.dp] as int - 1) % 256
      && (s.memory[s.dp] == 0 ==> t.memory[s.dp] == 255)
      && (forall i :: 0 <= i < |s.memory| && i != s.dp ==> t.memory[i] == s.memory[i])
      && t.dp == s.dp && t.pc == s.pc + 1 && t.output == s.output && t.input == s.input
  {
  }

  /** `+-` leaves the state as it was, apart from pc and the counter. */
  lemma IncrementThenDecrement(p: seq<Instruction>, s: State)
    requires CanStep(p, s) && s.pc + 1 < |p| && p[s.pc] == IP && p[s.pc + 1] == DP
    ensures CanStep(p, Step(p, s))
    ensures Step(p, Step(p, s)) == s.(pc := s.pc + 2, counter := s.counter + 2)
  {
  }

  /** `-+` leaves the state as it was, apart from pc and the counter. */
  lemma DecrementThenIncrement(p: seq<Instruction>, s: State)
    requires CanStep(p, s) && s.pc + 1 < |p| && p[s.pc] == DP && p[s.pc + 1] == IP
    ensures CanStep(p, Step(p, s))
    ensures Step(p, Step(p, s)) == s.(pc := s.pc + 2, counter := s.counter + 2)
  {
  }

  /** `>` and `<` move the data pointer by exactly one cell and change nothing else but pc. */
  lemma StepMove(p: seq<Instruction>, s: State)
    requires CanStep(p, s) && s.pc < |p| && (p[s.pc] == MR || p[s.pc] == ML)
    ensures var t := Step(p, s);
      && t.dp == (if p[s.pc] == MR then s.dp + 1 else s.dp - 1)
      && t.memory == s.memory && t.output == s.output && t.input == s.input
      && t.pc == s.pc + 1
  {
  }

  /** `><` and `<>` return the data pointer to where it was. */
  lemma MoveThereAndBack(p: seq<Instruction>, s: State)
    requires s.pc + 1 < |p| && {p[s.pc], p[s.pc + 1]} == {MR, ML}
    ensures CanStep(p, s) && CanStep(p, Step(p, s))
    ensures Step(p, Step(p, s)) == s.(pc := s.pc + 2, counter := s.counter + 2)
  {
  }

  /** `.` appends exactly the current cell, as a character, to the output and changes no cell. */
  lemma StepOutput(p: seq<Instruction>, s: State)
    requires CanStep(p, s) && s.pc < |p| && p[s.pc] == OP
    ensures var t := Step(p, s);
      && 0 <= s.dp < |s.memory|
      && t.output == s.output + [s.memory[s.dp] as char]
      && t.memory == s.memory && t.dp == s.dp && t.input == s.input && t.pc == s.pc + 1
  {
  }

  /** `,` stores the next input byte in the current cell and consumes it; with no input
      left the cell is unchanged. */
  lemma StepInput(p: seq<Instruction>, s: State)
    requires CanStep(p, s) && s.pc < |p| && p[s.pc] == RP
    ensures var t := Step(p, s);
      && (|s.input| > 0 ==> 0 <= s.dp < |s.memory|
                            && t.memory == s.memory[s.dp := s.input[0]] && t.input == s.input[1..])
      && (|s.input| == 0 ==> t.memory == s.memory && t.input == s.input)
      && t.dp == s.dp && t.output == s.output && t.pc == s.pc + 1
  {
  }

  /** `[` on a zero cell lands just after its matching `]`; on a nonzero cell it falls through. */
  lemma StepJumpForward(p: seq<Instruction>, s: State)
    requires CanStep(p, s) && s.pc < |p| && p[s.pc] == JF
    ensures var t := Step(p, s);
      && 0 <= s.dp < |s.memory|
      && (s.memory[s.dp] == 0 ==> forall c :: Matches(p, s.pc, c) <==> c == t.pc - 1)
      && (s.memory[s.dp] != 0 ==> t.pc == s.pc + 1)
      && t.memory == s.memory && t.dp == s.dp && t.output == s.output && t.input == s.input
  {
    var t := Step(p, s);
    if s.memory[s.dp] == 0 {
      forall c | Matches(p, s.pc, c)
        ensures c == t.pc - 1
      {
        ClosingUnique(p, s.pc, c, t.pc - 1);
      }
    }
  }

  /** `]` on a nonzero cell lands just after its matching `[`; on a zero cell it falls through. */
  lemma StepJumpBack(p: seq<Instruction>, s: State)
    requires CanStep(p, s) && s.pc < |p| && p[s.pc] == JB
    ensures var t := Step(p, s);
      && 0 <= s.dp < |s.memory|
      && (s.memory[s.dp] != 0 ==> forall o :: Matches(p, o, s.pc) <==> o == t.pc - 1)
      && (s.memory[s.dp] == 0 ==> t.pc == s.pc + 1)
      && t.memory == s.memory && t.dp == s.dp && t.output == s.output && t.input == s.input
  {
    var t := Step(p, s);
    if s.memory[s.dp] != 0 {
      forall o | Matches(p, o, s.pc)
        ensures o == t.pc - 1
      {
        OpeningUnique(p, o, t.pc - 1, s.pc);
      }
    }
  }

  // ---------------------------------------------------------------------------
  // Running

  /** A run only reports success once a successful step has left pc exactly at the end of
      the program, after at least one counted step. */
  lemma {:induction false} RunFinishesAtEnd(p: seq<Instruction>, s: State, fuel: nat)
    requires s.pc <= |p|
    ensures var r := Run(p, s, fuel);
      r.outcome == Finished ==> r.final.pc == |p| && r.final.counter > s.counter
    decreases fuel
  {
    if fuel > 0 && CanStep(p, s) {
      StepInvariants(p, s);
      var t := Step(p, s);
      if s.pc < |p| && t.pc < |p| {
        RunFinishesAtEnd(p, t, fuel - 1);
      }
    }
  }

  /** A run reports `step`'s error only when it starts with no instruction left: once it
      has started inside the program, it ends in success, a tape fault, an unmatched jump,
      or not at all within the budget. */
  lemma {:induction false} RunFailsOnlyWhenExhausted(p: seq<Instruction>, s: State, fuel: nat)
    requires s.pc <= |p|
    ensures var r := Run(p, s, fuel);
      r.outcome.Failed? ==>
        s.pc == |p| && r == RunResult(s.(counter := s.counter + 1), Failed(NoMoreInstructions))
    decreases fuel
  {
    if fuel > 0 && CanStep(p, s) {
      StepInvariants(p, s);
      var t := Step(p, s);
      if s.pc < |p| && t.pc < |p| {
        RunFailsOnlyWhenExhausted(p, t, fuel - 1);
      }
    }
  }

  /** In a well-bracketed program every jump a run takes has a bracket to land after. */
  lemma {:induction false} WellBracketedRunsMatched(p: seq<Instruction>, s: State, fuel: nat)
    requires WellBracketed(p)
    ensures Run(p, s, fuel).outcome != Unmatched
    decreases fuel
  {
    if fuel > 0 && CellSafe(p, s) {
      WellBracketedCanStep(p, s);
      var t := Step(p, s);
      if s.pc < |p| && t.pc < |p| {
        WellBracketedRunsMatched(p, t, fuel - 1);
      }
    }
  }

  /** Running the empty program fails at once, after one counted step. */
  lemma RunEmptyProgram(s: State, fuel: nat)
    requires fuel > 0
    ensures Run([], s, fuel) == RunResult(s.(counter := s.counter + 1), Failed(NoMoreInstructions))
  {
  }

  /** Net movement of the data pointer over p[i..j]. */
  function Moves(p: seq<Instruction>, i: int, j: int): int
    requires 0 <= i <= j <= |p|
    decreases j - i
  {
    if i == j then 0 else (if p[i] == MR then 1 else if p[i] == ML then -1 else 0) + Moves(p, i + 1, j)
  }

  predicate NoJumps(p: seq<Instruction>)
  {
    forall k :: 0 <= k < |p| ==> p[k] != JF && p[k] != JB
  }

  /** Executing p from s.pc straight through, every instruction other than a move finds
      the data pointer on the tape (this counts `,` as a cell access even at the end of
      the input, so it is a sufficient condition, not an exact one). */
  predicate StaysOnTape(p: seq<Instruction>, s: State)
    requires s.pc <= |p|
  {
    forall k :: s.pc <= k < |p| && p[k] != MR && p[k] != ML ==> 0 <= s.dp + Moves(p, s.pc, k) < |s.memory|
  }

  /** A program without loops that keeps to the tape runs to its end in exactly one
      step per remaining instruction. */
  lemma {:induction false} RunStraightLine(p: seq<Instruction>, s: State, fuel: nat)
    requires NoJumps(p) && s.pc < |p| && StaysOnTape(p, s) && fuel >= |p| - s.pc
    ensures WellBracketed(p)
    ensures var r := Run(p, s, fuel);
      r.outcome == Finished && r.final.pc == |p| && r.final.counter == s.counter + (|p| - s.pc)
    decreases |p| - s.pc
  {
    NoBracketsWellBracketed(p);
    assert s.pc <= s.pc < |p|;
    assert CellSafe(p, s);
    WellBracketedCanStep(p, s);
    var t := Step(p, s);
    if t.pc < |p| {
      assert StaysOnTape(p, t) by {
        forall k | t.pc <= k < |p| && p[k] != MR && p[k] != ML
          ensures 0 <= t.dp + Moves(p, t.pc, k) < |t.memory|
        {
          assert s.dp + Moves(p, s.pc, k) == t.dp + Moves(p, t.pc, k);
        }
      }
      RunStraightLine(p, t, fuel - 1);
    }
  }

  /** Corollary for a fresh program: it finishes with the counter equal to its length. */
  lemma RunStraightLineFromStart(p: seq<Instruction>, input: seq<Byte>, fuel: nat)
    requires NoJumps(p) && |p| > 0 && StaysOnTape(p, Initial(input)) && fuel >= |p|
    ensures WellBracketed(p)
    ensures var r := Run(p, Initial(input), fuel);
      r.outcome == Finished && r.final.counter == |p|
  {
    RunStraightLine(p, Initial(input), fuel);
  }
}
